=== FILE: README.md ===
# S-DES in Dafny

This project models Simplified DES (S-DES) as the repository's Python files implement it. S-DES is a teaching block cipher with a 10-bit key, an 8-bit block and two Feistel rounds. The model also covers the known-plaintext brute-force key search that uses the cipher as an oracle.

The repository repeats the cipher almost verbatim in several files:

| copy | modelled by |
|---|---|
| `SDES` in sdes_bruteforce_attack.py, sdes_qtv1.py, sdes_qtv3.py and sdes_cipher_generator.py (table-driven: `permute`, `left_shift`, `generate_keys`, `f_function`, `fk`, `switch`, `encrypt`, `decrypt`) | module `Sdes`, on top of `Bits` |
| `SDES` in sdes_base_o1.py and sdes_base_o1gui.py (tables as locals, round function written out inside `fk`, `int_to_bits`/`bits_to_int`, `sbox_lookup`) | module `InlineSdes`, proved equal to `Sdes` |
| `encrypt_text`, `decrypt_text`, `byte_to_bits` and `bits_to_byte` in sdes_qtv3.py | module `TextMode` |
| the 0/1 text boxes of sdes_base_o1gui.py (`parse_input` and the rendering of results) | module `InputParsing` |
| `brute_force_attack_all_pairs` in sdes_bruteforce_attack.py, with the pair generation of sdes_cipher_generator.py | module `KeySearch` |

Modules and what they hold:

- `Bits` models bits as `int` values 0 and 1 and bit lists as `seq<Bit>`. It provides 1-based table permutation, the slicing shift `bits[n:] + bits[:n]` and the `zip`-based XOR. It also models Python's integer/bit-list conversions: `bin`, `format(v, '0nb')`, `zfill` and `int(s, 2)`.
- `Sdes` holds the six permutation tables (and the two derived key-selection tables), the two S-boxes, the key schedule, the round function `fk`, `switch`, and the two-round `encrypt` and `decrypt`.
  - The key schedule is also stated independently, as two fixed selections from the key.
  - The central property is the Feistel round trip: `decrypt(encrypt(p)) == p` and `encrypt(decrypt(c)) == c` for every key and 8-bit block.
  - The textbook vector is proved: key 1010000010 and plaintext 10010111 give ciphertext 00111000, under subkeys 10100100 and 01000011.
- `InlineSdes` is the written-out variant. Its S-box row and column use `+` instead of `|`, its swap is written inline, and it converts numbers through `int_to_bits`. Every step is proved to compute the table-driven cipher.
- `TextMode` covers text mode, which encrypts each character's code point as an 8-bit block.
  - It proves the text round trip for code points below 256.
  - It shows what happens to wider characters. `format(v, '08b')` then gives nine or more bits, and the initial permutation reads only the first eight. As a result U+0100 encrypts exactly like U+0080 and decrypts to U+0080.
- `InputParsing` accepts exactly `n` characters, each `0` or `1`, and rejects anything else. Rendering a bit list and parsing it back are mutual inverses.
- `KeySearch` models the brute-force search. It starts from all 1024 keys, in `itertools.product` order. For each known pair in turn it keeps the keys that encrypt the plaintext to the ciphertext and records a round report (round number, count, surviving keys). It stops as soon as one key is left.
  - The search is written once over any cipher function, then instantiated with S-DES.
  - It is proved sound and complete: a key survives iff it is consistent with every pair consumed.
  - The rounds only shrink.
  - An early stop means exactly one key is left.
  - With no pairs, all 1024 keys remain.
  - For pairs generated under a key, that key always survives. If a single key is left, it is the generating key.

Where the code does something other than its own comments and labels say, the model follows the code:

- `left_shift` is commented as a left circular shift by n bits (sdes_qtv3.py:27, sdes_cipher_generator.py:23). The code's `bits[n:] + bits[:n]` is a rotation only while `n` is at most the length; a larger `n` returns the list unchanged. The key schedule shifts 5-bit halves by 1 and 2 only, so the difference never shows in the cipher. `Bits.LeftShiftRotates` proves the rotation for `n <= |bits|`.
- Keys and blocks are labelled "10-bit Key" and "8-bit Plaintext", and `byte_to_bits` is commented as converting a byte (0-255) to 8 bits (sdes_qtv3.py:109). Nothing in the cipher checks these lengths. Every table reads fixed positions, so a longer list is accepted and only its first 10 (key) or 8 (block) positions are read. The cipher functions therefore take `|key| >= 10` and `|block| >= 8`. `Sdes.EncryptReadsFirstByte` states the consequence. Text mode is where longer blocks actually occur: a code point of 256 or more gives nine or more bits.

## Model

| member | source | states |
|---|---|---|
| Bits.Permute | sdes_bruteforce_attack.py:20-21 | output position i holds the input bit named by the 1-based table entry i; the output is as long as the table, so a table may expand (E/P) or select (P8) |
| Bits.LeftShift | sdes_bruteforce_attack.py:23-24 | the shift keeps the length, and a shift by at least the length returns the list unchanged (slicing, not rotation modulo the length) |
| Bits.LeftShiftRotates | sdes_bruteforce_attack.py:23-24 | for a shift no longer than the list, the slicing shift is a circular rotation: position i receives the bit at (i + n) mod length |
| Bits.LeftShiftCompose | sdes_bruteforce_attack.py:29-31 | shifting by a and then by b is shifting by a + b while the total fits, which is why the second subkey sees a shift of three |
| Bits.Xor | sdes_bruteforce_attack.py:44-45 | the XOR is as long as the shorter operand (`zip` truncates) and each position is the XOR of the two bits |
| Bits.XorSelfInverse | sdes_bruteforce_attack.py:44-45 | XOR-ing twice with the same mask returns the original bits |
| Bits.BinDigits | sdes_base_o1.py:18-19 | the binary digits of v (`bin(v)[2:]`) are non-empty and have big-endian value v |
| Bits.IntToBits | sdes_base_o1.py:18-19 | `int_to_bits(v, n)` is at least n bits long, has value v, and is exactly n bits when v fits in n bits (n at least 1) |
| Bits.BitsToInt | sdes_base_o1.py:15-16 | `bits_to_int` fails exactly on the empty list and otherwise yields a value below 2 to the power of the length |
| Bits.IntToBitsRoundTrip | sdes_base_o1.py:15-19 | converting an integer to bits and back gives the integer, for every width |
| Bits.BitsToIntRoundTrip | sdes_base_o1.py:15-19 | converting a non-empty bit list to an integer and back at its own width gives the list |
| Bits.IntToBitsTwo | sdes_base_o1.py:62-68 | a two-bit S-box entry converts to its high bit followed by its low bit |
| Sdes.TablesValid | sdes_bruteforce_attack.py:10-15 | every table entry names a position inside the list it is applied to: P10 and P8 on 10 bits, IP and IP inverse on 8, E/P and P4 on 4 |
| Sdes.SboxesWellFormed | sdes_bruteforce_attack.py:16-17 | both S-boxes are 4 by 4 with entries in 0..3 |
| Sdes.GenerateKeys | sdes_bruteforce_attack.py:26-33 | the P10, split, shift and P8 schedule yields two 8-bit subkeys equal to fixed selections of key bits (1,7,9,4,8,3,10,6 and 8,3,6,5,10,2,9,1) |
| Sdes.SecondSubkeyShiftsByThree | sdes_bruteforce_attack.py:29-32 | the second subkey is P8 of the P10 halves each rotated by three in total |
| Sdes.ExpandAndPermute | sdes_bruteforce_attack.py:41-42 | E/P of a half is its rotation by three followed by its rotation by one |
| Sdes.ShiftOr | sdes_bruteforce_attack.py:48-49 | `(hi << 1) | lo` on two bits is 2·hi + lo |
| Sdes.SboxSubstitution | sdes_bruteforce_attack.py:47-50 | the row is bits 0 and 3, the column bits 1 and 2, both in 0..3, and the output is the entry's two-bit encoding |
| Sdes.FFunction | sdes_bruteforce_attack.py:52-57 | the round function maps a 4-bit half and a subkey to 4 bits |
| Sdes.FFunctionSpelledOut | sdes_bruteforce_attack.py:52-57 | the round function bit by bit from the tables: E/P pairs half bits 4,1,2,3,2,3,4,1 with the subkey, S0 and S1 are indexed by outer and inner mixed bits, and P4 returns the low S0 bit, the low S1 bit, the high S1 bit and the high S0 bit |
| Sdes.Fk | sdes_bruteforce_attack.py:59-63 | `fk` keeps the length, leaves the right half untouched, and changes the left half by exactly F(right, subkey): the new left half XOR the old one is the round function's output |
| Sdes.FkInvolution | sdes_bruteforce_attack.py:59-63 | applying `fk` twice with the same subkey is the identity |
| Sdes.Switch | sdes_bruteforce_attack.py:65-66 | `switch` exchanges the two 4-bit halves of a block |
| Sdes.SwitchInvolution | sdes_bruteforce_attack.py:65-66 | switching twice is the identity |
| Sdes.IpInverse | sdes_bruteforce_attack.py:35-39 | IP inverse undoes IP and IP undoes IP inverse on the first eight bits |
| Sdes.Encrypt | sdes_bruteforce_attack.py:68-73 | encryption yields an 8-bit block |
| Sdes.Decrypt | sdes_bruteforce_attack.py:75-80 | decryption yields an 8-bit block |
| Sdes.FeistelInverse | sdes_bruteforce_attack.py:69-79 | the fk, switch, fk core with the subkeys in reverse order undoes the forward core |
| Sdes.RoundsInverse | sdes_bruteforce_attack.py:68-80 | the whole IP, fk, switch, fk, IP inverse pipeline with reversed subkeys returns the first eight input bits |
| Sdes.DecryptEncrypt | sdes_bruteforce_attack.py:68-80 | decrypting an encryption under the same key returns the plaintext block |
| Sdes.EncryptDecrypt | sdes_bruteforce_attack.py:68-80 | encrypting a decryption under the same key returns the ciphertext block |
| Sdes.EncryptReadsFirstByte | sdes_bruteforce_attack.py:35-36 | encryption depends only on the first eight bits of the plaintext |
| Sdes.KnownVector | sdes_qtv1.py:172-177 | key 1010000010 encrypts 10010111 to 00111000, and decrypts it back |
| Sdes.KnownVectorSubkeys | sdes_qtv1.py:28-36 | key 1010000010 has subkeys 10100100 and 01000011 |
| InlineSdes.SboxLookup | sdes_base_o1.py:12-13 | `sbox_lookup` returns an entry of the chosen row, and for a 4 by 4 S-box of 2-bit entries a value in 0..3 |
| InlineSdes.Fk | sdes_base_o1.py:38-74 | the inline `fk` keeps the length and leaves the right half untouched |
| InlineSdes.InlineSubstitution | sdes_base_o1.py:60-68 | a row and column built with `+` stay in 0..3, the looked-up entry is in 0..3, and its `int_to_bits(v, 2)` encoding is the table-driven S-box output |
| InlineSdes.FkAgrees | sdes_base_o1.py:38-74 | the inline `fk` computes the table-driven `fk` for every block and subkey |
| InlineSdes.Encrypt | sdes_base_o1.py:76-85 | the inline encryption yields an 8-bit block |
| InlineSdes.Decrypt | sdes_base_o1.py:87-96 | the inline decryption yields an 8-bit block |
| InlineSdes.EncryptAgrees | sdes_base_o1.py:76-85 | the inline encryption equals the table-driven encryption for every key and block |
| InlineSdes.DecryptAgrees | sdes_base_o1.py:87-96 | the inline decryption equals the table-driven decryption for every key and block |
| InlineSdes.RoundTrip | sdes_base_o1.py:76-96 | the inline class decrypts its own encryption back to the plaintext block |
| TextMode.ByteToBits | sdes_qtv3.py:108-110 | `format(v, '08b')` has value v, is at least 8 bits long, and is exactly 8 bits iff v < 256 |
| TextMode.BitsToByte | sdes_qtv3.py:112-114 | `int(bits, 2)` fails exactly on the empty list, yields the value otherwise, and yields a byte for 8 bits |
| TextMode.ByteRoundTrip | sdes_qtv3.py:108-114 | a byte converts to bits and back to itself |
| TextMode.BitsRoundTrip | sdes_qtv3.py:108-114 | 8 bits convert to a byte and back to themselves |
| TextMode.EncryptText | sdes_qtv3.py:100-102 | text encryption gives one 8-bit block per character |
| TextMode.DecryptText | sdes_qtv3.py:104-106 | text decryption gives one character per block, each below 256 |
| TextMode.DecryptChar | sdes_qtv3.py:104-106 | the character decrypted from a block is the byte value of the decrypted bits |
| TextMode.ByteChar | sdes_qtv3.py:104-106 | `chr` of a byte value is the character whose code point is that value |
| TextMode.CharRoundTrip | sdes_qtv3.py:100-106 | a character below 256 decrypts back to itself |
| TextMode.TextRoundTrip | sdes_qtv3.py:100-106 | for text of characters below 256, the blocks decrypt and the result is the original text |
| TextMode.SameFirstByte | sdes_qtv3.py:100-110 | two characters whose bit strings share the first eight bits encrypt identically, and both decrypt to the one below 256 |
| TextMode.WideCharacterCollision | sdes_qtv3.py:100-110 | U+0100 encrypts like U+0080 under every key and decrypts to U+0080 |
| InputParsing.DigitValue | sdes_base_o1gui.py:190-194 | the character `1` reads as bit 1 and `0` as bit 0 |
| InputParsing.ParseInput | sdes_base_o1gui.py:190-194 | parsing fails iff the length is wrong or some character is not `0` or `1`; on success each position reads the bit its character shows |
| InputParsing.RenderBits | sdes_base_o1gui.py:172-179 | rendering writes one `0` or `1` per bit, `1` exactly for bit 1 |
| InputParsing.ParseRender | sdes_base_o1gui.py:172-194 | parsing a rendered bit list at its own length gives the list back |
| InputParsing.RenderParse | sdes_base_o1gui.py:172-194 | rendering what was parsed gives the accepted text back |
| KeySearch.KeyOrder | sdes_bruteforce_attack.py:83 | the candidate list has 1024 entries, and entry i is the 10-bit big-endian encoding of i (`product([0, 1], repeat=10)` order) |
| KeySearch.KeyOrderEnumerates | sdes_bruteforce_attack.py:83 | every 10-bit key occurs in the candidate list, nothing else does, and no key occurs twice |
| KeySearch.KeySpace | sdes_bruteforce_attack.py:84 | the starting set holds exactly the 10-bit keys, 1024 of them |
| KeySearch.SdesCipher | sdes_bruteforce_attack.py:91-92 | the oracle `SDES(key).encrypt(plaintext)` is S-DES encryption on every 10-bit key and block of at least 8 bits; where Python would raise it yields the empty block |
| KeySearch.Survivors | sdes_bruteforce_attack.py:88-95 | the keys left after some pairs are exactly the 10-bit keys that encrypt every plaintext to its ciphertext |
| KeySearch.SurvivorsStep | sdes_bruteforce_attack.py:89-95 | one more pair keeps exactly the earlier survivors that match it |
| KeySearch.FilterRound | sdes_bruteforce_attack.py:89-93 | one round keeps a subset of the candidates: exactly those whose encryption of the plaintext is the ciphertext |
| KeySearch.Report | sdes_bruteforce_attack.py:96-98 | report j carries round number j + 1, the count of its keys, and exactly the keys consistent with the first j + 1 pairs |
| KeySearch.Reports | sdes_bruteforce_attack.py:96-98 | the first n reports are the reports of rounds 1 to n, in order |
| KeySearch.ReportsShrink | sdes_bruteforce_attack.py:88-98 | each round's keys are a subset of the previous round's, and its count is no larger |
| KeySearch.AttackAllPairs | sdes_bruteforce_attack.py:82-104 | the search consumes at most all pairs and keeps one report per consumed pair; the result is the survivors of the consumed pairs, so it includes every key consistent with all pairs; with no pairs it is all 1024 keys; no count before the last is 1; an early stop leaves a count of 1 |
| KeySearch.BruteForceAttack | sdes_bruteforce_attack.py:82-104 | with S-DES as the cipher: a key is returned iff it is a 10-bit key consistent with the consumed pairs; report j is numbered j + 1 and holds exactly the survivors of the first j + 1 pairs with their count; rounds only shrink; the last report holds the result; no report before the last has one key, so the search stops at the first one-key round; an early stop leaves exactly one key |
| KeySearch.GeneratePairs | sdes_cipher_generator.py:117-119 | one pair per plaintext, carrying that plaintext and a ciphertext the generating key produces from it |
| KeySearch.TrueKeySurvives | sdes_cipher_generator.py:117-119 | the generating key survives any prefix of its own pairs |
| KeySearch.AttackOwnPairs | sdes_bruteforce_attack.py:82-104 | searching pairs generated under a key returns a set containing that key, and a single survivor is that key |
| KeySearch.AttackGeneratedPairs | sdes_cipher_generator.py:111-119 | for pairs generated under key 1010000010, the search keeps that key, and if one key is left it is 1010000010 |

## Left out

- Qt windows, widgets, slots and message boxes (`show_message`, the ASCII/binary branching of the sdes_qtv3.py window) are user interface. Only the pure conversions they call are modelled.
- Reading `ciphertext_results.txt` with `ast.literal_eval`, skipping malformed lines, and writing the result files are file I/O. The pair list is a parameter.
- Timing and `datetime` stamps, the report strings and the final summary message are left out. A round report is modelled as its round number, count and keys rather than as formatted text.
- The unused `ThreadPoolExecutor` import does nothing.
- `generate_random_plaintexts` uses randomness. The plaintexts become a parameter of `KeySearch.GeneratePairs` and `KeySearch.AttackGeneratedPairs`.
- The module-level example runs and prints are left out. The sdes_qtv1.py example (key 1010000010, plaintext 10010111) is the subject of `Sdes.KnownVector`. The example that runs in sdes_base_o1.py (key 1011010110, plaintext 01100101) has no lemma of its own. `InlineSdes.RoundTrip` proves, for that pair as for every other, that decrypting the ciphertext gives the plaintext back. The ciphertext's value itself is not stated.
- Tuples and lists are not distinguished: both are `seq<Bit>`. The search result is a set even where the code returns a list, because the list's order comes from iterating a Python set.
- sdes_cipher_generator.py defines `sbox_substitution` twice. The first formats the S-box entry directly, the second goes through a local `value`, so both compute the same bits. The second definition is the one Python keeps, and it is modelled once.
- KeySearch.SdesCipher: Python raises an exception when the key or block is too short. The model's cipher function returns an empty block instead. `KeySearch.BruteForceAttack` requires well-formed pairs, so this never matters there.
- Bits.XorSelfInverse: stated for a mask at least as long as the data. With a shorter mask, `zip` truncates and the original cannot come back.
- Sdes.Encrypt: the contract states only the block length. What encryption computes is stated by `Sdes.DecryptEncrypt`, `Sdes.EncryptDecrypt`, `Sdes.KnownVector` and `InlineSdes.EncryptAgrees`.
- With 0/1 bits, the S-box row and column are always in 0..3. The `Bit` type leaves out non-binary digits. sdes_qtv3.py's key box lets them through, because it checks only the key's length. The pair file read with `ast.literal_eval` lets them through too. Python raises `IndexError` on most such digits. Key positions 4, 5, 6 and 9 are different: a 2 or 3 there reaches only the low bit of an S-box row or column. `(hi << 1) | 2` and `(hi << 1) | 3` still stay in range, so such a key (e.g. `1010200010`) is read without error and silently changes the lookup. The model covers neither case.

=== FILE: bits.dfy ===
/** Bit-sequence utilities shared by every copy of the cipher: table-driven
    selection, circular shift, position-wise XOR, and the conversions between
    integers and big-endian bit lists. */
module Bits {
  import opened Wrappers

  /** One bit as the source stores it: the Python integer 0 or 1. */
  type Bit = b: int | 0 <= b <= 1

  function Pow2(n: nat): (r: nat)
    ensures r >= 1
  {
    if n == 0 then 1 else 2 * Pow2(n - 1)
  }

  /** Every entry of a selection table is a 1-based position into an input of `width` bits. */
  predicate ValidTable(table: seq<int>, width: nat)
  {
    forall i :: 0 <= i < |table| ==> 1 <= table[i] <= width
  }

  /** `permute(bits, table)`: output position i holds input position table[i] (1-based);
      the output is as long as the table, which may be longer than the input (E/P). */
  function Permute<T>(bits: seq<T>, table: seq<int>): (r: seq<T>)
    requires ValidTable(table, |bits|)
    ensures |r| == |table|
    ensures forall i :: 0 <= i < |table| ==> r[i] == bits[table[i] - 1]
  {
    seq(|table|, i requires 0 <= i < |table| => bits[table[i] - 1])
  }

  /** `left_shift(bits, n)`, i.e. `bits[n:] + bits[:n]`. Past the length Python's
      slices give `[] + bits`, so the input comes back unchanged: there is no
      reduction of n modulo the length. */
  function LeftShift<T>(bits: seq<T>, n: nat): (r: seq<T>)
    ensures |r| == |bits|
    ensures n >= |bits| ==> r == bits
  {
    if n <= |bits| then bits[n..] + bits[..n] else bits
  }

  /** Up to the length, `left_shift` is a circular shift: output position i holds
      input position (i + n) mod length. */
  lemma LeftShiftRotates<T>(bits: seq<T>, n: nat)
    requires n <= |bits|
    ensures forall i :: 0 <= i < |bits| ==> LeftShift(bits, n)[i] == bits[(i + n) % |bits|]
  {
    var r := LeftShift(bits, n);
    forall i | 0 <= i < |bits|
      ensures r[i] == bits[(i + n) % |bits|]
    {
      WrapIndex(i + n, |bits|);
      if i + n < |bits| {
        assert r[i] == bits[n..][i];
      } else {
        assert r[i] == bits[..n][i - (|bits| - n)];
      }
    }
  }

  lemma WrapIndex(x: nat, m: nat)
    requires 0 < m && x < 2 * m
    ensures x % m == if x < m then x else x - m
  {
  }

  /** Shifting by a and then by b is one shift by a + b, while the total stays within the length. */
  lemma LeftShiftCompose<T>(bits: seq<T>, a: nat, b: nat)
    requires a + b <= |bits|
    ensures LeftShift(LeftShift(bits, a), b) == LeftShift(bits, a + b)
  {
    var once := LeftShift(bits, a);
    assert once == bits[a..] + bits[..a];
    assert once[b..] == bits[a + b..] + bits[..a];
    assert once[..b] == bits[a..a + b];
    assert bits[..a] + bits[a..a + b] == bits[..a + b];
  }

  /** Python's `b1 ^ b2` on two bits. */
  function BitXor(a: Bit, b: Bit): Bit
  {
    if a == b then 0 else 1
  }

  /** Python's `x | y` on non-negative integers, digit by digit from the low end. */
  function BitOr(x: nat, y: nat): nat
    decreases x + y
  {
    if x == 0 then y
    else if y == 0 then x
    else 2 * BitOr(x / 2, y / 2) + (if x % 2 == 1 || y % 2 == 1 then 1 else 0)
  }

  /** `[b1 ^ b2 for b1, b2 in zip(bits1, bits2)]`: zip stops at the shorter list. */
  function Xor(a: seq<Bit>, b: seq<Bit>): (r: seq<Bit>)
    ensures |r| == if |a| <= |b| then |a| else |b|
    ensures forall i :: 0 <= i < |r| ==> r[i] == BitXor(a[i], b[i])
  {
    seq(if |a| <= |b| then |a| else |b|, i requires 0 <= i < |a| && i < |b| => BitXor(a[i], b[i]))
  }

  /** XOR with the same mask twice gives the input back. */
  lemma XorSelfInverse(a: seq<Bit>, b: seq<Bit>)
    requires |a| <= |b|
    ensures Xor(Xor(a, b), b) == a
  {
    var once := Xor(a, b);
    var twice := Xor(once, b);
    assert |once| == |a| && |twice| == |a|;
    forall i | 0 <= i < |a|
      ensures twice[i] == a[i]
    {
      assert once[i] == BitXor(a[i], b[i]);
    }
  }

  /** XOR-ing the result with the data again leaves the mask: what changed is the mask. */
  lemma XorCancels(a: seq<Bit>, b: seq<Bit>)
    requires |a| == |b|
    ensures Xor(Xor(a, b), a) == b
  {
    var once := Xor(a, b);
    var twice := Xor(once, a);
    assert |twice| == |b|;
    forall i | 0 <= i < |b|
      ensures twice[i] == b[i]
    {
      assert once[i] == BitXor(a[i], b[i]);
    }
  }

  /** Big-endian value of a bit list: what `int(''.join(map(str, bits)), 2)` computes. */
  function Value(bits: seq<Bit>): (r: nat)
    ensures r < Pow2(|bits|)
  {
    if |bits| == 0 then 0 else 2 * Value(bits[..|bits| - 1]) + bits[|bits| - 1]
  }

  lemma ValueSnoc(bits: seq<Bit>, d: Bit)
    ensures Value(bits + [d]) == 2 * Value(bits) + d
  {
    assert (bits + [d])[..|bits|] == bits;
  }

  /** The value of a concatenation: the prefix is worth 2^|suffix| per unit. */
  lemma {:induction false} ValueAppend(a: seq<Bit>, b: seq<Bit>)
    ensures Value(a + b) == Value(a) * Pow2(|b|) + Value(b)
    decreases |b|
  {
    if |b| == 0 {
      assert a + b == a;
    } else {
      var c, d := b[..|b| - 1], b[|b| - 1];
      assert b == c + [d];
      assert a + b == (a + c) + [d];
      ValueSnoc(a + c, d);
      ValueSnoc(c, d);
      ValueAppend(a, c);
      ScaleStep(Value(a), Pow2(|c|), Value(c), d);
    }
  }

  lemma ScaleStep(va: nat, p: nat, vc: nat, d: int)
    ensures 2 * (va * p + vc) + d == va * (2 * p) + (2 * vc + d)
  {
  }

  /** Two bit lists of one length with one value are the same list. */
  lemma {:induction false} ValueInjective(a: seq<Bit>, b: seq<Bit>)
    requires |a| == |b|
    requires Value(a) == Value(b)
    ensures a == b
    decreases |a|
  {
    if |a| > 0 {
      var n := |a| - 1;
      assert a[n] == b[n];
      ValueInjective(a[..n], b[..n]);
      assert a == a[..n] + [a[n]];
      assert b == b[..n] + [b[n]];
    }
  }

  /** `bin(v)[2:]`: the binary digits of v, without leading zeros, "0" for zero. */
  function BinDigits(v: nat): (r: seq<Bit>)
    ensures 1 <= |r|
    ensures Value(r) == v
    decreases v
  {
    if v < 2 then [v]
    else
      var r := BinDigits(v / 2) + [v % 2];
      ValueSnoc(BinDigits(v / 2), v % 2);
      r
  }

  /** A value below 2^n has at most n binary digits, once n is at least one. */
  lemma {:induction false} BinDigitsFit(v: nat, n: nat)
    requires 1 <= n
    requires v < Pow2(n)
    ensures |BinDigits(v)| <= n
    decreases v
  {
    if v >= 2 {
      assert Pow2(1) == 2;
      BinDigitsFit(v / 2, n - 1);
    }
  }

  function Zeros(n: nat): (r: seq<Bit>)
    ensures |r| == n
    ensures forall i :: 0 <= i < n ==> r[i] == 0
  {
    seq(n, i => 0)
  }

  lemma {:induction false} ValueZeros(n: nat)
    ensures Value(Zeros(n)) == 0
  {
    if n > 0 {
      assert Zeros(n) == Zeros(n - 1) + [0];
      ValueSnoc(Zeros(n - 1), 0);
      ValueZeros(n - 1);
    }
  }

  /** Leading zeros do not change the value. */
  lemma ValueZeroPadded(k: nat, digits: seq<Bit>)
    ensures Value(Zeros(k) + digits) == Value(digits)
  {
    ValueAppend(Zeros(k), digits);
    ValueZeros(k);
    assert Value(Zeros(k)) * Pow2(|digits|) == 0;
  }

  /** `int_to_bits(value, length)`, i.e. `bin(value)[2:].zfill(length)`, which is also
      `format(value, '0<length>b')`: big-endian digits, zero-padded on the left,
      never truncated. */
  function IntToBits(v: nat, width: nat): (r: seq<Bit>)
    ensures |r| >= width
    ensures Value(r) == v
    ensures 1 <= width && v < Pow2(width) ==> |r| == width
  {
    var digits := BinDigits(v);
    if |digits| < width then
      ValueZeroPadded(width - |digits|, digits);
      Zeros(width - |digits|) + digits
    else
      if 1 <= width && v < Pow2(width) then BinDigitsFit(v, width); digits
      else digits
  }

  /** `bits_to_int(bits)`: `int('', 2)` raises, so an empty list has no value. */
  function BitsToInt(bits: seq<Bit>): (r: Option<nat>)
    ensures r.None? <==> |bits| == 0
    ensures r.Some? ==> r.value < Pow2(|bits|)
  {
    if |bits| == 0 then None else Some(Value(bits))
  }

  /** Converting an integer to bits and back returns the integer, whatever the width. */
  lemma IntToBitsRoundTrip(v: nat, width: nat)
    ensures BitsToInt(IntToBits(v, width)) == Some(v)
  {
    assert |BinDigits(v)| >= 1;
  }

  /** Converting a non-empty bit list to an integer and back, at the list's own
      width, returns the list. */
  lemma BitsToIntRoundTrip(bits: seq<Bit>)
    requires |bits| >= 1
    ensures BitsToInt(bits).Some?
    ensures IntToBits(BitsToInt(bits).value, |bits|) == bits
  {
    var back := IntToBits(Value(bits), |bits|);
    ValueInjective(back, bits);
  }

  /** `int_to_bits(v, 2)` for an S-box entry is its two-bit big-endian encoding. */
  lemma IntToBitsTwo(v: nat)
    requires v < 4
    ensures IntToBits(v, 2) == [v / 2, v % 2]
  {
    assert Pow2(2) == 4;
    var expected: seq<Bit> := [v / 2, v % 2];
    ValueSnoc([v / 2], v % 2);
    assert [v / 2] + [v % 2] == expected;
    ValueInjective(IntToBits(v, 2), expected);
  }
}

=== FILE: inline_sdes.dfy ===
/** The S-DES class of sdes_base_o1.py, repeated verbatim in sdes_base_o1gui.py.
    It keeps the same tables as locals, derives subkeys exactly as `generate_keys`
    does, and spells out the round function inside `fk`: the S-box row and
    column are built with `+` rather than `|`, entries go through `int_to_bits`,
    and the half swap is written inline in `encrypt` and `decrypt`. */
module InlineSdes {
  import opened Bits
  import Sdes

  /** `sbox_lookup`. */
  function SboxLookup(sbox: seq<seq<int>>, row: int, col: int): (r: int)
    requires 0 <= row < |sbox| && 0 <= col < |sbox[row]|
    ensures r in sbox[row]
    ensures Sdes.IsSbox(sbox) ==> 0 <= r < 4
  {
    sbox[row][col]
  }

  /** The inline `fk`: the right half is expanded, mixed with the subkey, looked
      up in S0 and S1, permuted by P4 and XORed into the left half. */
  function Fk(bits: seq<Bit>, subkey: seq<Bit>): (r: seq<Bit>)
    requires |bits| >= 8 && |subkey| >= 8
    ensures |r| == |bits|
    ensures r[4..] == bits[4..]
  {
    Sdes.TablesValid();
    Sdes.SboxesWellFormed();
    var left, right := bits[..4], bits[4..];
    var rightExpanded := Permute(right, Sdes.EP);
    var xorResult := Xor(rightExpanded, subkey);
    var xorLeft, xorRight := xorResult[..4], xorResult[4..];
    var row0: int, col0: int := 2 * xorLeft[0] as int + xorLeft[3], 2 * xorLeft[1] as int + xorLeft[2];
    var s0Bits := IntToBits(SboxLookup(Sdes.S0, row0, col0), 2);
    var row1: int, col1: int := 2 * xorRight[0] as int + xorRight[3], 2 * xorRight[1] as int + xorRight[2];
    var s1Bits := IntToBits(SboxLookup(Sdes.S1, row1, col1), 2);
    var p4Result := Permute(s0Bits + s1Bits, Sdes.P4);
    var leftResult := Xor(left, p4Result);
    leftResult + right
  }

  /** The inline `fk` computes the table-driven class's `fk`: building the row and
      column with `+` and with `|` agrees on bits, and `int_to_bits(v, 2)` is the
      `format(v, '02b')` encoding. */
  lemma FkAgrees(bits: seq<Bit>, subkey: seq<Bit>)
    requires |bits| >= 8 && |subkey| >= 8
    ensures Fk(bits, subkey) == Sdes.Fk(bits, subkey)
  {
    Sdes.TablesValid();
    Sdes.SboxesWellFormed();
    var mixed := Xor(Permute(bits[4..], Sdes.EP), subkey);
    InlineSubstitution(mixed[..4], Sdes.S0);
    InlineSubstitution(mixed[4..], Sdes.S1);
    assert Sdes.ExpandAndPermute(bits[4..]) == Permute(bits[4..], Sdes.EP);
  }

  /** One inline S-box lookup, converted with `int_to_bits(v, 2)`, is the
      table-driven `sbox_substitution`. */
  lemma InlineSubstitution(half: seq<Bit>, sbox: seq<seq<int>>)
    requires |half| >= 4 && Sdes.IsSbox(sbox)
    ensures var row: int, col: int := 2 * half[0] as int + half[3], 2 * half[1] as int + half[2];
      && 0 <= row < 4 && 0 <= col < 4
      && 0 <= SboxLookup(sbox, row, col) < 4
      && IntToBits(SboxLookup(sbox, row, col), 2) == Sdes.SboxSubstitution(half, sbox)
  {
    var row: int, col: int := 2 * half[0] as int + half[3], 2 * half[1] as int + half[2];
    IntToBitsTwo(sbox[row][col]);
  }

  /** The inline `encrypt`. */
  function Encrypt(key: seq<Bit>, plaintext: seq<Bit>): (r: seq<Bit>)
    requires |key| >= 10 && |plaintext| >= 8
    ensures |r| == 8
  {
    Sdes.TablesValid();
    var keys := Sdes.GenerateKeys(key);
    var ipBits := Permute(plaintext, Sdes.IP);
    var resultFk1 := Fk(ipBits, keys.k1);
    var swapped := resultFk1[4..] + resultFk1[..4];
    var resultFk2 := Fk(swapped, keys.k2);
    Permute(resultFk2, Sdes.IP_INV)
  }

  /** The inline `decrypt`: subkeys in reverse order. */
  function Decrypt(key: seq<Bit>, ciphertext: seq<Bit>): (r: seq<Bit>)
    requires |key| >= 10 && |ciphertext| >= 8
    ensures |r| == 8
  {
    Sdes.TablesValid();
    var keys := Sdes.GenerateKeys(key);
    var ipBits := Permute(ciphertext, Sdes.IP);
    var resultFk1 := Fk(ipBits, keys.k2);
    var swapped := resultFk1[4..] + resultFk1[..4];
    var resultFk2 := Fk(swapped, keys.k1);
    Permute(resultFk2, Sdes.IP_INV)
  }

  /** The inline `encrypt` computes the table-driven `encrypt`: the swap written
      out in place is `switch`, and each inline `fk` is the table-driven one. */
  lemma EncryptAgrees(key: seq<Bit>, plaintext: seq<Bit>)
    requires |key| >= 10 && |plaintext| >= 8
    ensures Encrypt(key, plaintext) == Sdes.Encrypt(key, plaintext)
  {
    Sdes.TablesValid();
    var keys := Sdes.GenerateKeys(key);
    var ipBits := Permute(plaintext, Sdes.IP);
    FkAgrees(ipBits, keys.k1);
    var resultFk1 := Fk(ipBits, keys.k1);
    var swapped := resultFk1[4..] + resultFk1[..4];
    assert swapped == Sdes.Switch(resultFk1);
    FkAgrees(swapped, keys.k2);
  }

  /** The inline `decrypt` computes the table-driven `decrypt`. */
  lemma DecryptAgrees(key: seq<Bit>, ciphertext: seq<Bit>)
    requires |key| >= 10 && |ciphertext| >= 8
    ensures Decrypt(key, ciphertext) == Sdes.Decrypt(key, ciphertext)
  {
    Sdes.TablesValid();
    var keys := Sdes.GenerateKeys(key);
    var ipBits := Permute(ciphertext, Sdes.IP);
    FkAgrees(ipBits, keys.k2);
    var resultFk1 := Fk(ipBits, keys.k2);
    var swapped := resultFk1[4..] + resultFk1[..4];
    assert swapped == Sdes.Switch(resultFk1);
    FkAgrees(swapped, keys.k1);
  }

  /** Decrypting what the inline class encrypted under the same key gives back the
      8-bit block. */
  lemma RoundTrip(key: seq<Bit>, plaintext: seq<Bit>)
    requires |key| >= 10 && |plaintext| >= 8
    ensures Decrypt(key, Encrypt(key, plaintext)) == plaintext[..8]
  {
    EncryptAgrees(key, plaintext);
    DecryptAgrees(key, Encrypt(key, plaintext));
    Sdes.DecryptEncrypt(key, plaintext);
  }
}

=== FILE: input_parsing.dfy ===
/** The text form of bit strings in the desktop front end of sdes_base_o1gui.py:
    `parse_input` accepts exactly `expected_length` characters, each '0' or '1',
    and the result fields show bits joined back into a string of digits. */
module InputParsing {
  import opened Wrappers
  import opened Bits

  predicate IsBitChar(c: char)
  {
    c == '0' || c == '1'
  }

  /** The digit a bit character stands for. */
  function DigitValue(c: char): (b: Bit)
    requires IsBitChar(c)
    ensures c == '1' <==> b == 1
  {
    if c == '1' then 1 else 0
  }

  /** `parse_input`: `None` (after the error message, which is not modelled)
      when the length is wrong or a character is neither '0' nor '1'; otherwise
      the bits the characters spell. */
  function ParseInput(text: string, expectedLength: nat): (r: Option<seq<Bit>>)
    ensures r.None? <==> (|text| != expectedLength || exists i :: 0 <= i < |text| && !IsBitChar(text[i]))
    ensures r.Some? ==> |r.value| == expectedLength
    ensures r.Some? ==> forall i :: 0 <= i < |text| ==> (text[i] == '1' <==> r.value[i] == 1)
  {
    if |text| != expectedLength || !(forall i :: 0 <= i < |text| ==> IsBitChar(text[i])) then
      None
    else
      Some(seq(|text|, i requires 0 <= i < |text| && IsBitChar(text[i]) => DigitValue(text[i])))
  }

  /** `''.join(map(str, bits))`: each bit as its digit. */
  function RenderBits(bits: seq<Bit>): (r: string)
    ensures |r| == |bits|
    ensures forall i :: 0 <= i < |r| ==> IsBitChar(r[i]) && (r[i] == '1' <==> bits[i] == 1)
  {
    seq(|bits|, i requires 0 <= i < |bits| => if bits[i] == 1 then '1' else '0')
  }

  /** A rendered block parses back to the same bits at its own length. */
  lemma ParseRender(bits: seq<Bit>)
    ensures ParseInput(RenderBits(bits), |bits|) == Some(bits)
  {
    var text := RenderBits(bits);
    var parsed := ParseInput(text, |bits|);
    assert parsed.Some?;
    forall i | 0 <= i < |bits|
      ensures parsed.value[i] == bits[i]
    {
      assert text[i] == '1' <==> bits[i] == 1;
    }
    assert parsed.value == bits;
  }

  /** Text the parser accepts is rendered back to itself. */
  lemma RenderParse(text: string, expectedLength: nat)
    requires ParseInput(text, expectedLength).Some?
    ensures RenderBits(ParseInput(text, expectedLength).value) == text
  {
    var bits := ParseInput(text, expectedLength).value;
    var back := RenderBits(bits);
    forall i | 0 <= i < |text|
      ensures back[i] == text[i]
    {
      assert IsBitChar(text[i]);
    }
  }
}

=== FILE: key_search.dfy ===
/** The known-plaintext attack of sdes_bruteforce_attack.py and the pair
    generator of sdes_cipher_generator.py that feeds it. The search starts from
    all 1024 keys and, pair by pair, keeps the keys that encrypt the plaintext
    to the ciphertext, logging one report per pair and stopping as soon as a
    single key is left. */
module KeySearch {
  import opened Bits
  import Sdes

  /** A known plaintext and the ciphertext observed for it. */
  datatype Pair = Pair(plaintext: seq<Bit>, ciphertext: seq<Bit>)

  /** What one log line reports: the round number, how many keys are left and
      which ones. */
  datatype RoundReport = RoundReport(round: nat, count: nat, keys: set<seq<Bit>>)

  predicate IsKey(key: seq<Bit>)
  {
    |key| == 10
  }

  /** `product([0, 1], repeat=10)`: the i-th key spells i in binary. */
  function KeyOrder(): (r: seq<seq<Bit>>)
    ensures |r| == 1024
    ensures forall i :: 0 <= i < |r| ==> IsKey(r[i]) && Value(r[i]) == i
  {
    assert Pow2(10) == 1024;
    seq(1024, i requires 0 <= i < 1024 => IntToBits(i, 10))
  }

  /** The enumeration lists every 10-bit key, each exactly once. */
  lemma KeyOrderEnumerates()
    ensures forall key :: IsKey(key) <==> key in KeyOrder()
    ensures forall i, j :: 0 <= i < j < |KeyOrder()| ==> KeyOrder()[i] != KeyOrder()[j]
  {
    var order := KeyOrder();
    forall key | IsKey(key)
      ensures key in order
    {
      assert Pow2(10) == 1024;
      ValueInjective(key, order[Value(key)]);
    }
  }

  /** A sequence without repeats has as many distinct elements as entries. */
  lemma {:induction false} DistinctElements<T>(s: seq<T>)
    requires forall i, j :: 0 <= i < j < |s| ==> s[i] != s[j]
    ensures |set x | x in s| == |s|
  {
    if |s| > 0 {
      var init := s[..|s| - 1];
      DistinctElements(init);
      assert (set x | x in s) == (set x | x in init) + {s[|s| - 1]};
      assert s[|s| - 1] !in (set x | x in init);
    }
  }

  /** `set(possible_keys)`: the 1024 keys of length ten. */
  function KeySpace(): (r: set<seq<Bit>>)
    ensures forall key :: key in r <==> IsKey(key)
    ensures |r| == 1024
  {
    KeyOrderEnumerates();
    DistinctElements(KeyOrder());
    set key | key in KeyOrder()
  }

  /** A block cipher as the search uses it: key and plaintext to ciphertext. */
  type Cipher = (seq<Bit>, seq<Bit>) -> seq<Bit>

  /** `SDES(key).encrypt(plaintext)`, the cipher the attack runs. Python raises
      on a key shorter than ten bits or a block shorter than eight; neither
      reaches it below, and the empty result stands for that failure. */
  function SdesCipher(): (r: Cipher)
    ensures forall key, block :: IsKey(key) && |block| >= 8 ==> r(key, block) == Sdes.Encrypt(key, block)
    ensures forall key, block :: !(|key| >= 10 && |block| >= 8) ==> r(key, block) == []
  {
    (key: seq<Bit>, block: seq<Bit>) => if |key| >= 10 && |block| >= 8 then Sdes.Encrypt(key, block) else []
  }

  /** The pairs the attack can run on: `encrypt` reads eight plaintext bits. */
  predicate WellFormedPairs(pairs: seq<Pair>)
  {
    forall j :: 0 <= j < |pairs| ==> |pairs[j].plaintext| >= 8
  }

  /** The test inside the search loop: the key encrypts the plaintext to the
      ciphertext. */
  predicate Matches(encrypt: Cipher, key: seq<Bit>, pair: Pair)
  {
    encrypt(key, pair.plaintext) == pair.ciphertext
  }

  predicate ConsistentWithAll(encrypt: Cipher, key: seq<Bit>, pairs: seq<Pair>)
  {
    forall j :: 0 <= j < |pairs| ==> Matches(encrypt, key, pairs[j])
  }

  /** The keys consistent with every pair in `pairs`. */
  function Survivors(encrypt: Cipher, pairs: seq<Pair>): (r: set<seq<Bit>>)
    ensures forall key :: key in r <==> IsKey(key) && ConsistentWithAll(encrypt, key, pairs)
  {
    set key | key in KeySpace() && ConsistentWithAll(encrypt, key, pairs)
  }

  /** Consuming one more pair keeps exactly the survivors that match it. */
  lemma SurvivorsStep(encrypt: Cipher, pairs: seq<Pair>, i: nat)
    requires i < |pairs|
    ensures forall key :: key in Survivors(encrypt, pairs[..i + 1]) <==>
      key in Survivors(encrypt, pairs[..i]) && Matches(encrypt, key, pairs[i])
  {
    forall key
      ensures ConsistentWithAll(encrypt, key, pairs[..i + 1]) <==>
        ConsistentWithAll(encrypt, key, pairs[..i]) && Matches(encrypt, key, pairs[i])
    {
      assert pairs[..i + 1][i] == pairs[i];
      assert forall j :: 0 <= j < i ==> pairs[..i + 1][j] == pairs[..i][j];
    }
  }

  /** A key consistent with all pairs is consistent with every prefix of them. */
  lemma ConsistentPrefix(encrypt: Cipher, key: seq<Bit>, pairs: seq<Pair>, m: nat)
    requires m <= |pairs|
    requires ConsistentWithAll(encrypt, key, pairs)
    ensures ConsistentWithAll(encrypt, key, pairs[..m])
  {
    assert forall j :: 0 <= j < m ==> pairs[..m][j] == pairs[j];
  }

  /** A subset is no larger than its superset. */
  lemma {:induction false} SubsetSize<T>(a: set<T>, b: set<T>)
    requires a <= b
    ensures |a| <= |b|
    decreases |b|
  {
    if a != {} {
      var x :| x in a;
      SubsetSize(a - {x}, b - {x});
    }
  }

  /** The inner loop of one round: the candidates that encrypt the pair's
      plaintext to its ciphertext. */
  method FilterRound(encrypt: Cipher, candidates: set<seq<Bit>>, pair: Pair) returns (kept: set<seq<Bit>>)
    ensures kept <= candidates
    ensures forall key :: key in kept <==> key in candidates && Matches(encrypt, key, pair)
  {
    kept := {};
    var rest := candidates;
    while rest != {}
      invariant rest <= candidates
      invariant forall key :: key in kept <==> key in candidates && key !in rest && Matches(encrypt, key, pair)
      decreases |rest|
    {
      var key :| key in rest;
      if encrypt(key, pair.plaintext) == pair.ciphertext {
        kept := kept + {key};
      }
      rest := rest - {key};
    }
  }

  /** The report of round `j + 1`: the keys consistent with the first `j + 1`
      pairs, and how many there are. */
  function Report(encrypt: Cipher, pairs: seq<Pair>, j: nat): (r: RoundReport)
    requires j < |pairs|
    ensures r.round == j + 1 && r.count == |r.keys|
    ensures forall key :: key in r.keys <==> IsKey(key) && ConsistentWithAll(encrypt, key, pairs[..j + 1])
  {
    var keys := Survivors(encrypt, pairs[..j + 1]);
    RoundReport(j + 1, |keys|, keys)
  }

  /** The reports of the first `n` rounds, in order. */
  function Reports(encrypt: Cipher, pairs: seq<Pair>, n: nat): (r: seq<RoundReport>)
    requires n <= |pairs|
    ensures |r| == n
    ensures forall j :: 0 <= j < n ==> r[j] == Report(encrypt, pairs, j)
  {
    if n == 0 then [] else Reports(encrypt, pairs, n - 1) + [Report(encrypt, pairs, n - 1)]
  }

  /** Round after round the surviving set can only shrink, and so can its size. */
  lemma ReportsShrink(encrypt: Cipher, pairs: seq<Pair>, n: nat)
    requires n <= |pairs|
    ensures forall j :: 0 < j < n ==>
      Reports(encrypt, pairs, n)[j].keys <= Reports(encrypt, pairs, n)[j - 1].keys &&
      Reports(encrypt, pairs, n)[j].count <= Reports(encrypt, pairs, n)[j - 1].count
  {
    forall j | 0 < j < n
      ensures Report(encrypt, pairs, j).keys <= Report(encrypt, pairs, j - 1).keys
      ensures Report(encrypt, pairs, j).count <= Report(encrypt, pairs, j - 1).count
    {
      ReportShrinks(encrypt, pairs, j);
    }
  }

  lemma ReportShrinks(encrypt: Cipher, pairs: seq<Pair>, j: nat)
    requires 0 < j < |pairs|
    ensures Report(encrypt, pairs, j).keys <= Report(encrypt, pairs, j - 1).keys
    ensures Report(encrypt, pairs, j).count <= Report(encrypt, pairs, j - 1).count
  {
    var later, earlier := Report(encrypt, pairs, j).keys, Report(encrypt, pairs, j - 1).keys;
    forall key | key in later
      ensures key in earlier
    {
      ConsistentPrefix(encrypt, key, pairs[..j + 1], j);
      assert pairs[..j + 1][..j] == pairs[..j];
    }
    SubsetSize(later, earlier);
  }

  /** `brute_force_attack_all_pairs`, for any cipher: the reports are those of
      the rounds run, the result is the keys consistent with the pairs consumed,
      and the loop stops early exactly when a round leaves one key. */
  method AttackAllPairs(encrypt: Cipher, pairs: seq<Pair>) returns (keys: set<seq<Bit>>, reports: seq<RoundReport>)
    ensures |reports| <= |pairs|
    ensures reports == Reports(encrypt, pairs, |reports|)
    ensures keys == Survivors(encrypt, pairs[..|reports|])
    ensures forall key :: IsKey(key) && ConsistentWithAll(encrypt, key, pairs) ==> key in keys
    ensures |pairs| == 0 ==> reports == [] && keys == KeySpace() && |keys| == 1024
    ensures forall j :: 0 <= j < |reports| - 1 ==> reports[j].count != 1
    ensures |reports| < |pairs| ==> |reports| > 0 && reports[|reports| - 1].count == 1
  {
    keys := KeySpace();
    reports := [];
    assert keys == Survivors(encrypt, pairs[..0]);
    var roundNumber := 1;
    while roundNumber <= |pairs|
      invariant 1 <= roundNumber <= |pairs| + 1
      invariant |reports| == roundNumber - 1
      invariant keys == Survivors(encrypt, pairs[..|reports|])
      invariant |reports| == 0 ==> keys == KeySpace()
      invariant reports == Reports(encrypt, pairs, |reports|)
      invariant forall j :: 0 <= j < |reports| ==> reports[j].count != 1
      decreases |pairs| - roundNumber
    {
      var i := roundNumber - 1;
      keys := FilterRound(encrypt, keys, pairs[i]);
      SurvivorsStep(encrypt, pairs, i);
      assert keys == Survivors(encrypt, pairs[..i + 1]);
      var report := Report(encrypt, pairs, i);
      assert report.count == |keys|;
      reports := reports + [report];
      roundNumber := roundNumber + 1;
      if |keys| == 1 {
        break;
      }
    }
    forall key | IsKey(key) && ConsistentWithAll(encrypt, key, pairs)
      ensures key in keys
    {
      ConsistentPrefix(encrypt, key, pairs, |reports|);
    }
  }

  /** `brute_force_attack_all_pairs` as the script runs it, with S-DES. */
  method BruteForceAttack(pairs: seq<Pair>) returns (keys: set<seq<Bit>>, reports: seq<RoundReport>)
    requires WellFormedPairs(pairs)
    ensures |reports| <= |pairs|
    ensures reports == Reports(SdesCipher(), pairs, |reports|)
    ensures forall key :: key in keys <==> IsKey(key) && ConsistentWithAll(SdesCipher(), key, pairs[..|reports|])
    ensures forall key :: IsKey(key) && ConsistentWithAll(SdesCipher(), key, pairs) ==> key in keys
    ensures forall j :: 0 <= j < |reports| ==> reports[j].round == j + 1 && reports[j].count == |reports[j].keys|
    ensures forall j :: 0 < j < |reports| ==> reports[j].keys <= reports[j - 1].keys
    ensures |reports| > 0 ==> reports[|reports| - 1].keys == keys
    ensures forall j :: 0 <= j < |reports| - 1 ==> reports[j].count != 1
    ensures |reports| < |pairs| ==> |keys| == 1
  {
    keys, reports := AttackAllPairs(SdesCipher(), pairs);
    ReportsShrink(SdesCipher(), pairs, |reports|);
  }

  /** The generator's loop: each plaintext with its encryption under `key`. */
  function GeneratePairs(encrypt: Cipher, key: seq<Bit>, plaintexts: seq<seq<Bit>>): (r: seq<Pair>)
    ensures |r| == |plaintexts|
    ensures forall i :: 0 <= i < |r| ==> r[i].plaintext == plaintexts[i] && Matches(encrypt, key, r[i])
  {
    seq(|plaintexts|, i requires 0 <= i < |plaintexts| => Pair(plaintexts[i], encrypt(key, plaintexts[i])))
  }

  /** The key that produced the pairs survives every prefix of them. */
  lemma TrueKeySurvives(encrypt: Cipher, key: seq<Bit>, plaintexts: seq<seq<Bit>>, m: nat)
    requires IsKey(key) && m <= |plaintexts|
    ensures key in Survivors(encrypt, GeneratePairs(encrypt, key, plaintexts)[..m])
  {
    var pairs := GeneratePairs(encrypt, key, plaintexts);
    assert ConsistentWithAll(encrypt, key, pairs);
    ConsistentPrefix(encrypt, key, pairs, m);
  }

  /** Attacking pairs made with a key never loses that key, and when the attack
      ends with one key that key is the one used. */
  method AttackOwnPairs(encrypt: Cipher, key: seq<Bit>, plaintexts: seq<seq<Bit>>)
    returns (keys: set<seq<Bit>>, reports: seq<RoundReport>)
    requires IsKey(key)
    ensures key in keys
    ensures |keys| == 1 ==> keys == {key}
    ensures |reports| <= |plaintexts|
  {
    var pairs := GeneratePairs(encrypt, key, plaintexts);
    keys, reports := AttackAllPairs(encrypt, pairs);
    TrueKeySurvives(encrypt, key, plaintexts, |reports|);
    if |keys| == 1 {
      SingletonMember(keys, key);
    }
  }

  /** A one-element set holding `x` is `{x}`. */
  lemma SingletonMember<T>(s: set<T>, x: T)
    requires x in s && |s| == 1
    ensures s == {x}
  {
    forall y | y in s
      ensures y == x
    {
      if y != x {
        SubsetSize({x, y}, s);
      }
    }
  }

  /** The key hard-wired in sdes_cipher_generator.py. */
  const GeneratorKey: seq<Bit> := [1, 0, 1, 0, 0, 0, 0, 0, 1, 0]

  /** The two scripts together: the generator encrypts its 8-bit plaintexts under
      its fixed key, and the attack on those pairs keeps that key. */
  method AttackGeneratedPairs(plaintexts: seq<seq<Bit>>) returns (keys: set<seq<Bit>>, reports: seq<RoundReport>)
    requires forall i :: 0 <= i < |plaintexts| ==> |plaintexts[i]| == 8
    ensures GeneratorKey in keys
    ensures |keys| == 1 ==> keys == {GeneratorKey}
    ensures |reports| <= |plaintexts|
  {
    keys, reports := AttackOwnPairs(SdesCipher(), GeneratorKey, plaintexts);
  }
}

=== FILE: sdes.dfy ===
/** The table-driven S-DES class that sdes_bruteforce_attack.py, sdes_qtv1.py,
    sdes_qtv3.py and sdes_cipher_generator.py each carry a copy of. The Python
    object that caches its two subkeys is modelled as the `Subkeys` value that
    `GenerateKeys` returns. */
module Sdes {
  import opened Bits

  const P10: seq<int> := [3, 5, 2, 7, 4, 10, 1, 9, 8, 6]
  const P8: seq<int> := [6, 3, 7, 4, 8, 5, 10, 9]
  const IP: seq<int> := [2, 6, 3, 1, 4, 8, 5, 7]
  const IP_INV: seq<int> := [4, 1, 3, 5, 7, 2, 8, 6]
  const EP: seq<int> := [4, 1, 2, 3, 2, 3, 4, 1]
  const P4: seq<int> := [2, 4, 3, 1]
  const S0: seq<seq<int>> := [[1, 0, 3, 2], [3, 2, 1, 0], [0, 2, 1, 3], [3, 1, 0, 2]]
  const S1: seq<seq<int>> := [[0, 1, 2, 3], [2, 3, 1, 0], [3, 0, 1, 2], [2, 1, 0, 3]]

  /** Reference schedule: the master-key positions (1-based) that end up in each
      subkey bit once P10, the shifts and P8 are composed. */
  const K1_SELECT: seq<int> := [1, 7, 9, 4, 8, 3, 10, 6]
  const K2_SELECT: seq<int> := [8, 3, 6, 5, 10, 2, 9, 1]

  /** Every selection table only names positions its input has. */
  lemma TablesValid()
    ensures forall w: nat :: w >= 10 ==> ValidTable(P10, w) && ValidTable(P8, w)
    ensures forall w: nat :: w >= 10 ==> ValidTable(K1_SELECT, w) && ValidTable(K2_SELECT, w)
    ensures forall w: nat :: w >= 8 ==> ValidTable(IP, w) && ValidTable(IP_INV, w)
    ensures forall w: nat :: w >= 4 ==> ValidTable(EP, w) && ValidTable(P4, w)
  {
  }

  /** A 4x4 table of 2-bit entries. */
  predicate IsSbox(sbox: seq<seq<int>>)
  {
    && |sbox| == 4
    && (forall row :: 0 <= row < 4 ==> |sbox[row]| == 4)
    && (forall row, col :: 0 <= row < 4 && 0 <= col < 4 ==> 0 <= sbox[row][col] <= 3)
  }

  datatype Subkeys = Subkeys(k1: seq<Bit>, k2: seq<Bit>)

  /** `generate_keys`: P10, split 5/5, rotate both halves by one for the first
      subkey, by two more for the second, P8 each time. */
  function GenerateKeys(key: seq<Bit>): (r: Subkeys)
    requires |key| >= 10
    ensures |r.k1| == 8 && |r.k2| == 8
    ensures r.k1 == Permute(key, K1_SELECT)
    ensures r.k2 == Permute(key, K2_SELECT)
  {
    TablesValid();
    var permuted := Permute(key, P10);
    var left, right := permuted[..5], permuted[5..];
    var left1, right1 := LeftShift(left, 1), LeftShift(right, 1);
    var k1 := Permute(left1 + right1, P8);
    var left2, right2 := LeftShift(left1, 2), LeftShift(right1, 2);
    var k2 := Permute(left2 + right2, P8);
    ShiftedHalves(permuted);
    KeyTablesSpelledOut(key, left1 + right1, left2 + right2);
    SelectTablesSpelledOut(key);
    Subkeys(k1, k2)
  }

  /** Where each P10 output bit lands after the two rounds of half rotations. */
  lemma ShiftedHalves(p: seq<Bit>)
    requires |p| == 10
    ensures LeftShift(p[..5], 1) + LeftShift(p[5..], 1)
         == [p[1], p[2], p[3], p[4], p[0], p[6], p[7], p[8], p[9], p[5]]
    ensures LeftShift(LeftShift(p[..5], 1), 2) + LeftShift(LeftShift(p[5..], 1), 2)
         == [p[3], p[4], p[0], p[1], p[2], p[8], p[9], p[5], p[6], p[7]]
  {
  }

  lemma KeyTablesSpelledOut(key: seq<Bit>, c: seq<Bit>, d: seq<Bit>)
    requires |key| >= 10 && |c| == 10 && |d| == 10
    ensures Permute(key, P10) == [key[2], key[4], key[1], key[6], key[3], key[9], key[0], key[8], key[7], key[5]]
    ensures Permute(c, P8) == [c[5], c[2], c[6], c[3], c[7], c[4], c[9], c[8]]
    ensures Permute(d, P8) == [d[5], d[2], d[6], d[3], d[7], d[4], d[9], d[8]]
  {
    TablesValid();
  }

  lemma SelectTablesSpelledOut(key: seq<Bit>)
    requires |key| >= 10
    ensures Permute(key, K1_SELECT) == [key[0], key[6], key[8], key[3], key[7], key[2], key[9], key[5]]
    ensures Permute(key, K2_SELECT) == [key[7], key[2], key[5], key[4], key[9], key[1], key[8], key[0]]
  {
    TablesValid();
  }

  /** The second subkey is P8 of the P10 halves each rotated left by three in
      total: the shift by two is applied to the already once-shifted halves. */
  lemma SecondSubkeyShiftsByThree(key: seq<Bit>)
    requires |key| >= 10
    ensures GenerateKeys(key).k2
         == Permute(LeftShift(Permute(key, P10)[..5], 3) + LeftShift(Permute(key, P10)[5..], 3), P8)
  {
    TablesValid();
    var permuted := Permute(key, P10);
    LeftShiftCompose(permuted[..5], 1, 2);
    LeftShiftCompose(permuted[5..], 1, 2);
  }

  /** `expand_and_permute`: E/P makes 8 bits of 4; its first half is the input
      rotated left by three, its second half the input rotated left by one. */
  function ExpandAndPermute(half: seq<Bit>): (r: seq<Bit>)
    requires |half| >= 4
    ensures |r| == 8
    ensures r[..4] == LeftShift(half[..4], 3)
    ensures r[4..] == LeftShift(half[..4], 1)
  {
    TablesValid();
    Permute(half, EP)
  }

  /** `(hi << 1) | lo` on two bits: the OR used for the S-box row and column
      agrees with the sum `(hi << 1) + lo` used by the inline copies. */
  function ShiftOr(hi: Bit, lo: Bit): (r: int)
    ensures r == 2 * hi + lo
  {
    BitOr(2 * hi, lo)
  }

  /** `sbox_substitution`: the row comes from bits 0 and 3, the column from bits
      1 and 2, and the entry is returned as two big-endian bits. */
  function SboxSubstitution(bits: seq<Bit>, sbox: seq<seq<int>>): (r: seq<Bit>)
    requires |bits| >= 4
    requires IsSbox(sbox)
    ensures var row: int, col: int := 2 * bits[0] as int + bits[3], 2 * bits[1] as int + bits[2];
      0 <= row < 4 && 0 <= col < 4 && r == [sbox[row][col] / 2, sbox[row][col] % 2]
  {
    var row := ShiftOr(bits[0], bits[3]);
    var col := ShiftOr(bits[1], bits[2]);
    IntToBitsTwo(sbox[row][col]);
    IntToBits(sbox[row][col], 2)
  }

  lemma SboxesWellFormed()
    ensures IsSbox(S0) && IsSbox(S1)
  {
  }

  /** `f_function`: E/P, XOR with the subkey, S0 on the left four bits and S1 on
      the right four, then P4. */
  function FFunction(half: seq<Bit>, subkey: seq<Bit>): (r: seq<Bit>)
    requires |half| >= 4 && |subkey| >= 8
    ensures |r| == 4
  {
    var expanded := ExpandAndPermute(half);
    var mixed := Xor(expanded, subkey);
    SboxesWellFormed();
    var substituted := SboxSubstitution(mixed[..4], S0) + SboxSubstitution(mixed[4..], S1);
    TablesValid();
    Permute(substituted, P4)
  }

  /** The round function bit by bit, from the tables alone: E/P feeds half bits
      4 1 2 3 | 2 3 4 1 against the subkey, S0 reads its row from mixed bits 1
      and 4 and its column from bits 2 and 3 (S1 likewise on bits 5 to 8), and
      P4 emits the low S0 bit, the low S1 bit, the high S1 bit, the high S0 bit. */
  lemma FFunctionSpelledOut(half: seq<Bit>, subkey: seq<Bit>)
    requires |half| >= 4 && |subkey| >= 8
    ensures IsSbox(S0) && IsSbox(S1)
    ensures var m: seq<Bit> := [BitXor(half[3], subkey[0]), BitXor(half[0], subkey[1]),
                                BitXor(half[1], subkey[2]), BitXor(half[2], subkey[3]),
                                BitXor(half[1], subkey[4]), BitXor(half[2], subkey[5]),
                                BitXor(half[3], subkey[6]), BitXor(half[0], subkey[7])];
      var a := S0[2 * m[0] as int + m[3]][2 * m[1] as int + m[2]];
      var b := S1[2 * m[4] as int + m[7]][2 * m[5] as int + m[6]];
      FFunction(half, subkey) == [a % 2, b % 2, b / 2, a / 2]
  {
    SboxesWellFormed();
    HalfTablesSpelledOut(half);
    FFunctionUnfolded(half, subkey);
    var mixed := Xor(ExpandAndPermute(half), subkey);
    HalfTablesSpelledOut(SboxSubstitution(mixed[..4], S0) + SboxSubstitution(mixed[4..], S1));
  }

  /** `fk`: XOR F(right, subkey) into the left half; the right half passes through. */
  function Fk(bits: seq<Bit>, subkey: seq<Bit>): (r: seq<Bit>)
    requires |bits| >= 8 && |subkey| >= 8
    ensures |r| == |bits|
    ensures r[4..] == bits[4..]
    ensures Xor(r[..4], bits[..4]) == FFunction(bits[4..], subkey)
  {
    var left, right := bits[..4], bits[4..];
    var f := FFunction(right, subkey);
    var mixedLeft := Xor(left, f);
    XorCancels(left, f);
    assert (mixedLeft + right)[..4] == mixedLeft;
    mixedLeft + right
  }

  /** Applying `fk` twice with one subkey is the identity. */
  lemma FkInvolution(bits: seq<Bit>, subkey: seq<Bit>)
    requires |bits| >= 8 && |subkey| >= 8
    ensures Fk(Fk(bits, subkey), subkey) == bits
  {
    var once := Fk(bits, subkey);
    var f := FFunction(bits[4..], subkey);
    assert once[..4] == Xor(bits[..4], f);
    XorSelfInverse(bits[..4], f);
    assert Fk(once, subkey)[..4] == Xor(once[..4], f);
    assert bits == bits[..4] + bits[4..];
  }

  /** `switch`: `bits[4:] + bits[:4]`, the same slicing as a left shift by four. */
  function Switch(bits: seq<Bit>): (r: seq<Bit>)
    ensures |r| == |bits|
    ensures |bits| == 8 ==> r[..4] == bits[4..] && r[4..] == bits[..4]
  {
    LeftShift(bits, 4)
  }

  /** Swapping the halves of an 8-bit block twice gives the block back. */
  lemma SwitchInvolution(bits: seq<Bit>)
    requires |bits| == 8
    ensures Switch(Switch(bits)) == bits
  {
    LeftShiftCompose(bits, 4, 4);
  }

  /** IP^-1 undoes IP and IP undoes IP^-1; both read only the first eight bits. */
  lemma IpInverse(bits: seq<Bit>)
    requires |bits| >= 8
    ensures Permute(Permute(bits, IP), IP_INV) == bits[..8]
    ensures Permute(Permute(bits, IP_INV), IP) == bits[..8]
  {
    BlockTablesSpelledOut(bits);
  }

  lemma BlockTablesSpelledOut(bits: seq<Bit>)
    requires |bits| >= 8
    ensures Permute(bits, IP) == [bits[1], bits[5], bits[2], bits[0], bits[3], bits[7], bits[4], bits[6]]
    ensures Permute(bits, IP_INV) == [bits[3], bits[0], bits[2], bits[4], bits[6], bits[1], bits[7], bits[5]]
  {
    TablesValid();
  }

  lemma HalfTablesSpelledOut(half: seq<Bit>)
    requires |half| >= 4
    ensures Permute(half, EP) == [half[3], half[0], half[1], half[2], half[1], half[2], half[3], half[0]]
    ensures Permute(half, P4) == [half[1], half[3], half[2], half[0]]
  {
    TablesValid();
  }

  /** `encrypt`: IP, fk with subkey 1, switch, fk with subkey 2, IP^-1. */
  function Encrypt(key: seq<Bit>, plaintext: seq<Bit>): (r: seq<Bit>)
    requires |key| >= 10 && |plaintext| >= 8
    ensures |r| == 8
  {
    TablesValid();
    var keys := GenerateKeys(key);
    var bits := Permute(plaintext, IP);
    var bits1 := Fk(bits, keys.k1);
    var bits2 := Switch(bits1);
    var bits3 := Fk(bits2, keys.k2);
    Permute(bits3, IP_INV)
  }

  /** `decrypt`: the same structure with the subkeys in reverse order. */
  function Decrypt(key: seq<Bit>, ciphertext: seq<Bit>): (r: seq<Bit>)
    requires |key| >= 10 && |ciphertext| >= 8
    ensures |r| == 8
  {
    TablesValid();
    var keys := GenerateKeys(key);
    var bits := Permute(ciphertext, IP);
    var bits1 := Fk(bits, keys.k2);
    var bits2 := Switch(bits1);
    var bits3 := Fk(bits2, keys.k1);
    Permute(bits3, IP_INV)
  }

  /** The Feistel skeleton shared by `encrypt` and `decrypt`, with explicit round keys. */
  function Rounds(block: seq<Bit>, first: seq<Bit>, second: seq<Bit>): (r: seq<Bit>)
    requires |block| >= 8 && |first| >= 8 && |second| >= 8
    ensures |r| == 8
  {
    TablesValid();
    Permute(Feistel(Permute(block, IP), first, second), IP_INV)
  }

  /** The middle of the skeleton: fk with the first key, switch, fk with the second. */
  function Feistel(bits: seq<Bit>, first: seq<Bit>, second: seq<Bit>): (r: seq<Bit>)
    requires |bits| == 8 && |first| >= 8 && |second| >= 8
    ensures |r| == 8
  {
    Fk(Switch(Fk(bits, first)), second)
  }

  /** Running the skeleton with the round keys swapped undoes it. */
  lemma RoundsInverse(block: seq<Bit>, first: seq<Bit>, second: seq<Bit>)
    requires |block| >= 8 && |first| >= 8 && |second| >= 8
    ensures Rounds(Rounds(block, first, second), second, first) == block[..8]
  {
    TablesValid();
    var a := Permute(block, IP);
    var d := Feistel(a, first, second);
    IpInverse(d);
    assert d[..8] == d;
    FeistelInverse(a, first, second);
    IpInverse(block);
  }

  /** fk-switch-fk is undone by the same steps with the round keys swapped. */
  lemma FeistelInverse(a: seq<Bit>, first: seq<Bit>, second: seq<Bit>)
    requires |a| == 8 && |first| >= 8 && |second| >= 8
    ensures Feistel(Feistel(a, first, second), second, first) == a
  {
    var b := Fk(a, first);
    var c := Switch(b);
    var d := Fk(c, second);
    assert Fk(d, second) == c by { FkInvolution(c, second); }
    assert Switch(c) == b by { SwitchInvolution(b); }
    assert Fk(b, first) == a by { FkInvolution(a, first); }
  }

  /** Decrypting a ciphertext gives back the (first eight bits of the) plaintext. */
  lemma DecryptEncrypt(key: seq<Bit>, plaintext: seq<Bit>)
    requires |key| >= 10 && |plaintext| >= 8
    ensures Decrypt(key, Encrypt(key, plaintext)) == plaintext[..8]
  {
    var keys := GenerateKeys(key);
    assert Encrypt(key, plaintext) == Rounds(plaintext, keys.k1, keys.k2);
    RoundsInverse(plaintext, keys.k1, keys.k2);
  }

  /** Encrypting a decrypted block gives back the block. */
  lemma EncryptDecrypt(key: seq<Bit>, ciphertext: seq<Bit>)
    requires |key| >= 10 && |ciphertext| >= 8
    ensures Encrypt(key, Decrypt(key, ciphertext)) == ciphertext[..8]
  {
    var keys := GenerateKeys(key);
    assert Decrypt(key, ciphertext) == Rounds(ciphertext, keys.k2, keys.k1);
    RoundsInverse(ciphertext, keys.k2, keys.k1);
  }

  /** Bits after the eighth never reach the cipher: IP reads positions 1..8 only. */
  lemma EncryptReadsFirstByte(key: seq<Bit>, plaintext: seq<Bit>)
    requires |key| >= 10 && |plaintext| >= 8
    ensures Encrypt(key, plaintext) == Encrypt(key, plaintext[..8])
  {
    TablesValid();
    assert Permute(plaintext, IP) == Permute(plaintext[..8], IP);
  }

  /** The example pair of the module-level demonstration: key 1010000010 and
      plaintext 10010111 give ciphertext 00111000, which decrypts back. */
  lemma KnownVector()
    ensures Encrypt([1, 0, 1, 0, 0, 0, 0, 0, 1, 0], [1, 0, 0, 1, 0, 1, 1, 1]) == [0, 0, 1, 1, 1, 0, 0, 0]
    ensures Decrypt([1, 0, 1, 0, 0, 0, 0, 0, 1, 0], [0, 0, 1, 1, 1, 0, 0, 0]) == [1, 0, 0, 1, 0, 1, 1, 1]
  {
    var key: seq<Bit> := [1, 0, 1, 0, 0, 0, 0, 0, 1, 0];
    var plaintext: seq<Bit> := [1, 0, 0, 1, 0, 1, 1, 1];
    KnownVectorSubkeys();
    assert Encrypt(key, plaintext) == Rounds(plaintext, [1, 0, 1, 0, 0, 1, 0, 0], [0, 1, 0, 0, 0, 0, 1, 1]);
    KnownVectorRounds();
    DecryptEncrypt(key, plaintext);
  }

  /** Key 1010000010 schedules subkeys 10100100 and 01000011. */
  lemma KnownVectorSubkeys()
    ensures GenerateKeys([1, 0, 1, 0, 0, 0, 0, 0, 1, 0]) == Subkeys([1, 0, 1, 0, 0, 1, 0, 0], [0, 1, 0, 0, 0, 0, 1, 1])
  {
    SelectTablesSpelledOut([1, 0, 1, 0, 0, 0, 0, 0, 1, 0]);
  }

  lemma KnownVectorRounds()
    ensures Rounds([1, 0, 0, 1, 0, 1, 1, 1], [1, 0, 1, 0, 0, 1, 0, 0], [0, 1, 0, 0, 0, 0, 1, 1]) == [0, 0, 1, 1, 1, 0, 0, 0]
  {
    BlockTablesSpelledOut([1, 0, 0, 1, 0, 1, 1, 1]);
    KnownVectorRound1();
    KnownVectorSwitch();
    KnownVectorRound2();
    BlockTablesSpelledOut([0, 0, 1, 0, 1, 0, 1, 0]);
  }

  lemma KnownVectorRound1()
    ensures Fk([0, 1, 0, 1, 1, 1, 0, 1], [1, 0, 1, 0, 0, 1, 0, 0]) == [1, 0, 1, 0, 1, 1, 0, 1]
  {
    KnownVectorF([1, 1, 0, 1], [1, 0, 1, 0, 0, 1, 0, 0], [0, 1, 0, 0, 1, 1, 1, 1]);
    assert Xor([0, 1, 0, 1], [1, 1, 1, 1]) == [1, 0, 1, 0];
    FkFromF([0, 1, 0, 1], [1, 1, 0, 1], [1, 0, 1, 0, 0, 1, 0, 0], [1, 1, 1, 1], [1, 0, 1, 0]);
  }

  /** `fk` on a block given as its two halves, once F of the right half is known. */
  lemma FkFromF(left: seq<Bit>, right: seq<Bit>, subkey: seq<Bit>, f: seq<Bit>, mixedLeft: seq<Bit>)
    requires |left| == 4 && |right| == 4 && |subkey| >= 8
    requires FFunction(right, subkey) == f && Xor(left, f) == mixedLeft
    ensures Fk(left + right, subkey) == mixedLeft + right
  {
    assert (left + right)[..4] == left && (left + right)[4..] == right;
  }

  lemma KnownVectorSwitch()
    ensures Switch([1, 0, 1, 0, 1, 1, 0, 1]) == [1, 1, 0, 1, 1, 0, 1, 0]
  {
  }

  lemma KnownVectorRound2()
    ensures Fk([1, 1, 0, 1, 1, 0, 1, 0], [0, 1, 0, 0, 0, 0, 1, 1]) == [0, 0, 1, 0, 1, 0, 1, 0]
  {
    KnownVectorF([1, 0, 1, 0], [0, 1, 0, 0, 0, 0, 1, 1], [0, 0, 0, 1, 0, 1, 1, 0]);
    assert Xor([1, 1, 0, 1], [1, 1, 1, 1]) == [0, 0, 1, 0];
    FkFromF([1, 1, 0, 1], [1, 0, 1, 0], [0, 1, 0, 0, 0, 0, 1, 1], [1, 1, 1, 1], [0, 0, 1, 0]);
  }

  /** In both example rounds the E/P output XOR the subkey selects an entry 3 in
      each S-box, so F yields 1111. */
  lemma KnownVectorF(half: seq<Bit>, subkey: seq<Bit>, mixed: seq<Bit>)
    requires (half == [1, 1, 0, 1] && subkey == [1, 0, 1, 0, 0, 1, 0, 0] && mixed == [0, 1, 0, 0, 1, 1, 1, 1])
          || (half == [1, 0, 1, 0] && subkey == [0, 1, 0, 0, 0, 0, 1, 1] && mixed == [0, 0, 0, 1, 0, 1, 1, 0])
    ensures FFunction(half, subkey) == [1, 1, 1, 1]
  {
    if half == [1, 1, 0, 1] {
      KnownVectorMix1();
    } else {
      KnownVectorMix2();
    }
    SboxOfAllOnes(mixed);
    FWhenBothSboxesGiveThree(half, subkey);
  }

  lemma FWhenBothSboxesGiveThree(half: seq<Bit>, subkey: seq<Bit>)
    requires |half| >= 4 && |subkey| >= 8
    requires IsSbox(S0) && IsSbox(S1)
    requires SboxSubstitution(Xor(ExpandAndPermute(half), subkey)[..4], S0) == [1, 1]
    requires SboxSubstitution(Xor(ExpandAndPermute(half), subkey)[4..], S1) == [1, 1]
    ensures FFunction(half, subkey) == [1, 1, 1, 1]
  {
    var mixed := Xor(ExpandAndPermute(half), subkey);
    var substituted := SboxSubstitution(mixed[..4], S0) + SboxSubstitution(mixed[4..], S1);
    FFunctionUnfolded(half, subkey);
    HalfTablesSpelledOut(substituted);
    assert substituted[0] == 1 && substituted[1] == 1 && substituted[2] == 1 && substituted[3] == 1;
  }

  lemma FFunctionUnfolded(half: seq<Bit>, subkey: seq<Bit>)
    requires |half| >= 4 && |subkey| >= 8
    ensures IsSbox(S0) && IsSbox(S1)
    ensures FFunction(half, subkey)
         == Permute(SboxSubstitution(Xor(ExpandAndPermute(half), subkey)[..4], S0)
                    + SboxSubstitution(Xor(ExpandAndPermute(half), subkey)[4..], S1), P4)
  {
    SboxesWellFormed();
    TablesValid();
  }

  lemma KnownVectorMix1()
    ensures Xor(ExpandAndPermute([1, 1, 0, 1]), [1, 0, 1, 0, 0, 1, 0, 0]) == [0, 1, 0, 0, 1, 1, 1, 1]
  {
    var expanded := ExpandAndPermute([1, 1, 0, 1]);
    assert expanded == [1, 1, 1, 0, 1, 0, 1, 1] by { HalfTablesSpelledOut([1, 1, 0, 1]); }
    XorOfBytes(expanded, [1, 0, 1, 0, 0, 1, 0, 0], [0, 1, 0, 0, 1, 1, 1, 1]);
  }

  lemma KnownVectorMix2()
    ensures Xor(ExpandAndPermute([1, 0, 1, 0]), [0, 1, 0, 0, 0, 0, 1, 1]) == [0, 0, 0, 1, 0, 1, 1, 0]
  {
    var expanded := ExpandAndPermute([1, 0, 1, 0]);
    assert expanded == [0, 1, 0, 1, 0, 1, 0, 1] by { HalfTablesSpelledOut([1, 0, 1, 0]); }
    XorOfBytes(expanded, [0, 1, 0, 0, 0, 0, 1, 1], [0, 0, 0, 1, 0, 1, 1, 0]);
  }

  /** XOR of two 8-bit lists, checked position by position. */
  lemma XorOfBytes(a: seq<Bit>, b: seq<Bit>, c: seq<Bit>)
    requires |a| == 8 && |b| == 8 && |c| == 8
    requires forall i :: 0 <= i < 8 ==> c[i] == BitXor(a[i], b[i])
    ensures Xor(a, b) == c
  {
  }

  lemma SboxOfAllOnes(mixed: seq<Bit>)
    requires mixed == [0, 1, 0, 0, 1, 1, 1, 1] || mixed == [0, 0, 0, 1, 0, 1, 1, 0]
    ensures IsSbox(S0) && SboxSubstitution(mixed[..4], S0) == [1, 1]
    ensures IsSbox(S1) && SboxSubstitution(mixed[4..], S1) == [1, 1]
  {
    SboxesWellFormed();
    IntToBitsTwo(3);
  }
}

=== FILE: text_mode.dfy ===
/** Per-character text encryption of sdes_qtv3.py: each character's code point
    is written as (at least) eight big-endian bits and encrypted on its own with
    the same key; decryption turns each 8-bit block back into a character. */
module TextMode {
  import opened Wrappers
  import opened Bits
  import Sdes

  /** `byte_to_bits`: `format(byte, '08b')`, which is longer than eight bits for
      values above 255. */
  function ByteToBits(b: nat): (r: seq<Bit>)
    ensures |r| >= 8 && Value(r) == b
    ensures b < 256 <==> |r| == 8
  {
    assert Pow2(8) == 256;
    IntToBits(b, 8)
  }

  /** `bits_to_byte`: `int(''.join(...), 2)`, which fails on an empty list. */
  function BitsToByte(bits: seq<Bit>): (r: Option<nat>)
    ensures r.None? <==> |bits| == 0
    ensures r.Some? ==> Value(bits) == r.value
    ensures |bits| == 8 ==> r.Some? && r.value < 256
  {
    assert Pow2(8) == 256;
    BitsToInt(bits)
  }

  /** Every byte value survives `byte_to_bits` then `bits_to_byte`. */
  lemma ByteRoundTrip(b: nat)
    requires b < 256
    ensures BitsToByte(ByteToBits(b)) == Some(b)
  {
    IntToBitsRoundTrip(b, 8);
  }

  /** Every 8-bit block survives `bits_to_byte` then `byte_to_bits`. */
  lemma BitsRoundTrip(bits: seq<Bit>)
    requires |bits| == 8
    ensures BitsToByte(bits).Some? && ByteToBits(BitsToByte(bits).value) == bits
  {
    BitsToIntRoundTrip(bits);
  }

  /** `encrypt_text`: one cipher block per character. */
  function EncryptText(key: seq<Bit>, text: string): (r: seq<seq<Bit>>)
    requires |key| >= 10
    ensures |r| == |text|
    ensures forall i :: 0 <= i < |r| ==> |r[i]| == 8
  {
    seq(|text|, i requires 0 <= i < |text| => Sdes.Encrypt(key, ByteToBits(text[i] as nat)))
  }

  /** The blocks `decrypt_text` accepts: `decrypt` reads eight bits of each. */
  predicate Decryptable(blocks: seq<seq<Bit>>)
  {
    forall i :: 0 <= i < |blocks| ==> |blocks[i]| >= 8
  }

  /** `decrypt_text`: each block is decrypted to eight bits, read as a byte and
      turned into the character with that code point. */
  function DecryptText(key: seq<Bit>, blocks: seq<seq<Bit>>): (r: string)
    requires |key| >= 10 && Decryptable(blocks)
    ensures |r| == |blocks|
    ensures forall i :: 0 <= i < |r| ==> (r[i] as int) < 256
  {
    seq(|blocks|, i requires 0 <= i < |blocks| && |blocks[i]| >= 8 => DecryptChar(key, blocks[i]))
  }

  /** One block of `decrypt_text`: `chr(bits_to_byte(decrypt(bits)))`. */
  function DecryptChar(key: seq<Bit>, block: seq<Bit>): (c: char)
    requires |key| >= 10 && |block| >= 8
    ensures (c as int) < 256
    ensures BitsToByte(Sdes.Decrypt(key, block)) == Some(c as nat)
  {
    ByteChar(BitsToByte(Sdes.Decrypt(key, block)).value)
  }

  /** `chr` on a byte value. */
  function ByteChar(v: nat): (c: char)
    requires v < 256
    ensures c as nat == v
  {
    v as char
  }

  /** The characters whose code point fits in a byte. */
  predicate OneByteText(text: string)
  {
    forall i :: 0 <= i < |text| ==> (text[i] as int) < 256
  }

  /** Encrypting one character and decrypting the block gives the character
      back when its code point is below 256. */
  lemma CharRoundTrip(key: seq<Bit>, c: char)
    requires |key| >= 10 && (c as int) < 256
    ensures DecryptChar(key, Sdes.Encrypt(key, ByteToBits(c as nat))) == c
  {
    var bits := ByteToBits(c as nat);
    BlockRoundTrip(key, bits);
    ByteRoundTrip(c as nat);
  }

  /** An 8-bit block is its own first byte, so decryption returns all of it. */
  lemma BlockRoundTrip(key: seq<Bit>, bits: seq<Bit>)
    requires |key| >= 10 && |bits| == 8
    ensures Sdes.Decrypt(key, Sdes.Encrypt(key, bits)) == bits
  {
    assert bits[..8] == bits;
    Sdes.DecryptEncrypt(key, bits);
  }

  /** `decrypt_text(encrypt_text(s)) == s` for every text of one-byte characters. */
  lemma TextRoundTrip(key: seq<Bit>, text: string)
    requires |key| >= 10 && OneByteText(text)
    ensures Decryptable(EncryptText(key, text))
    ensures DecryptText(key, EncryptText(key, text)) == text
  {
    var blocks := EncryptText(key, text);
    var back := DecryptText(key, blocks);
    forall i | 0 <= i < |text|
      ensures back[i] == text[i]
    {
      CharRoundTrip(key, text[i]);
    }
  }

  /** A character is encrypted through the first eight bits of its code point
      only: two characters that agree there encrypt alike, and both decrypt to
      the one-byte character. */
  lemma SameFirstByte(key: seq<Bit>, c: char, d: char)
    requires |key| >= 10 && (d as int) < 256
    requires ByteToBits(c as nat)[..8] == ByteToBits(d as nat)
    ensures EncryptText(key, [c]) == EncryptText(key, [d])
    ensures DecryptText(key, EncryptText(key, [c])) == [d]
  {
    SameFirstByteEncrypts(key, c, d);
    TextRoundTrip(key, [d]);
  }

  lemma SameFirstByteEncrypts(key: seq<Bit>, c: char, d: char)
    requires |key| >= 10 && (d as int) < 256
    requires ByteToBits(c as nat)[..8] == ByteToBits(d as nat)
    ensures EncryptText(key, [c]) == EncryptText(key, [d])
  {
    OneCharacter(key, c);
    OneCharacter(key, d);
    Sdes.EncryptReadsFirstByte(key, ByteToBits(c as nat));
  }

  lemma OneCharacter(key: seq<Bit>, c: char)
    requires |key| >= 10
    ensures EncryptText(key, [c]) == [Sdes.Encrypt(key, ByteToBits(c as nat))]
  {
  }

  /** Above 255 the round trip breaks: `byte_to_bits(256)` has nine bits, and
      the cipher reads only the first eight, so U+0100 encrypts exactly like
      U+0080 and decrypts to it. */
  lemma WideCharacterCollision(key: seq<Bit>)
    requires |key| >= 10
    ensures EncryptText(key, [256 as char]) == EncryptText(key, [128 as char])
    ensures DecryptText(key, EncryptText(key, [256 as char])) == [128 as char]
  {
    NineBitsOf256();
    EightBitsOf128();
    SameFirstByte(key, 256 as char, 128 as char);
  }

  lemma NineBitsOf256()
    ensures ByteToBits(256) == [1, 0, 0, 0, 0, 0, 0, 0, 0]
  {
  }

  lemma EightBitsOf128()
    ensures ByteToBits(128) == [1, 0, 0, 0, 0, 0, 0, 0]
  {
  }
}

=== FILE: wrappers.dfy ===
/** The optional value the Python code signals with `None` (or with an exception
    it lets escape). */
module Wrappers {

  datatype Option<+T> = None | Some(value: T)
}
